=== FILE: README.md ===
# Zoostore shop server: a verified model

This project models the in-memory state of the zoostore demo server and the logic of its
route handlers. The HTTP and file layers are left out. The state is one immutable `Shop`
value, and each route is a pure function over it:

- **Products**: a sequence of `{id, name, price, imageUrl}`.
- **Users**: a sequence of `{id, name, balance}`, plus the `nextUserId` counter.
- **Cart**: a map from user id to an ordered sequence of `{productId, quantity}` lines.
- **Transactions**: an append-only sequence of `{userId, products, totalPrice, date}`.

Each handler that changes the state and can fail returns `Result<(Shop, answer), Error>`. An
`Err` carries no state, so a failed request changes nothing. The read-only balance lookup
`Users.GetBalance` can fail too, and returns `Result<User, Error>`, with no `Shop`. Handlers that
cannot fail return their answer directly: the new state for user generation (with the user)
and cart clearing, and only the answer for the other read-only routes. `Server.Handle` makes this explicit: it pairs every route with the
state after it and its answer.

Modules, in dependency order:

- `Wrappers`: `Option` and `Result`.
- `Seqs`: the first-match lookup behind JavaScript's `find` / `findIndex`, removal at a
  position (`splice(i, 1)`), and the subsequence relation.
- `Decimal`: integer to decimal text, as a template literal prints an integer of magnitude below 10^21. It
  is used for the generated user's name, and its parser is the inverse.
- `ShopState`: the entities, the error kinds, the lookups, start-up loading and the
  invariant `Valid`.
- `Users`: `/generate-user` and `/balance/:userId`.
- `Catalog`: `POST /products`, `DELETE /products/:id` and `DELETE /products`.
- `Cart`: `/cart/add`, `GET /cart/:userId` and `DELETE /cart/:userId`.
- `Transactions`: `/transactions/:userId`.
- `Checkout`: `/checkout`.
- `Server`: dispatch of every route, and the invariant over any sequence of requests.

Prices and balances are unbounded integers. The transaction date is an opaque `Timestamp`
parameter. An uploaded image is represented by its stored file name. The public path is
`/uploads/<file>`.

Input typing:

- Cart-add ids are `Option<int>`. `None` means the field is missing. As in the server, an
  id of `0` is rejected too.
- The product form's price is `Option<int>`. `None` means the field is missing or empty.
  Form fields arrive as strings, so a price of `0` passes the presence test.

## Expectations the code does not meet (the model follows the code)

- **Product ids.** Product ids might be expected to be unique and never reused. The code
  assigns `products.length + 1` (server.js:87), so after a deletion an id can repeat.
  `Catalog.IdRepeatsAfterDelete` proves this on a concrete sequence: add, add, delete id 1,
  add. Two products with id 2 remain. The model keeps first-match lookups and states no
  uniqueness invariant for products.
- **Product price.** A product's price might be expected to be positive. The code only checks that the
  field is present, so the model accepts any integer price.
- **Checkout with a missing user.** This might be expected to be a not-found error. The code
  answers it with the same 400 status as the other checkout failures. Status codes are not modelled; only the
  error kind is.
- **Product names in the cart display.** The cart display shows "未知商品" both for a
  deleted product and for a product whose name is empty (`product?.name || …`).

## Model

| member | source | states |
|---|---|---|
| Seqs.FirstIndex | server.js:96 | Returns the first index whose key matches and no earlier match, or `None` exactly when no element matches: the semantics of `findIndex` / `find` |
| Seqs.RemoveAt | server.js:102 | `splice(i, 1)`: the length drops by one, the elements before `i` stay in place and the ones after shift down by one |
| Seqs.RemoveAtMultiset | server.js:102 | As a multiset, the sequence loses exactly the removed element |
| ShopState.FindProduct | server.js:124 | `products.find`: `None` iff no product has the id; otherwise a catalog product carrying the id |
| ShopState.FindProductIsFirst | server.js:124 | The product found is the one at the first position carrying the id |
| ShopState.UserIndex | server.js:206 | `users.find` by position: the first user with the id, or `None` iff there is none |
| ShopState.CartOf | server.js:179 | A user without a cart entry has no lines; otherwise the lines are the stored entry |
| ShopState.InitialNextUserId | server.js:45 | The start-up counter is above every loaded user id: one more than the maximum id, or 1 for no users |
| ShopState.MaxId | server.js:45 | The maximum is at least every id and is one of them |
| ShopState.Load | server.js:26-45 | Start-up keeps the loaded collections and sets the counter to the start-up value: one more than the largest loaded id, or 1 |
| ShopState.LoadValid | server.js:32-45 | Loaded data with distinct user ids, non-negative balances and well-formed carts gives a valid state |
| Decimal.NatToString | server.js:56 | The decimal rendering is a non-empty string of digits with no leading zero |
| Decimal.IntToString | server.js:56 | The rendering is a numeral and starts with '-' exactly for negative numbers |
| Decimal.NatRoundTrip | server.js:56 | Parsing the decimal rendering of a natural number gives it back |
| Decimal.IntRoundTrip | server.js:56 | Parsing the rendering of any integer gives it back |
| Decimal.IntToStringInjective | server.js:56 | Distinct ids render to distinct strings |
| Users.GenerateUser | server.js:55-58 | The new user gets the counter's id, the default name and balance 50000. It is appended after all existing users, the counter goes up by one, and nothing else changes |
| Users.GenerateUserKeepsUsersValid | server.js:55-58 | With a fresh counter, the new id differs from every existing id, and ids stay distinct and below the counter |
| Users.GeneratedUsersDiffer | server.js:56-58 | Two users generated in a row differ in both id and display name |
| Users.GetBalance | server.js:65-74 | Not found iff no user has the id; otherwise returns the first stored user with that id, as `users.find` does |
| Catalog.AddProduct | server.js:79-88 | Rejected iff the name, price or image is missing. Otherwise appends exactly one product, with id = catalog length + 1 and the given fields; everything else is unchanged |
| Catalog.AddKeepsSequentialIds | server.js:87 | A catalog built only by additions has id `i + 1` at position `i` |
| Catalog.IdRepeatsAfterDelete | server.js:87 | Add, add, delete the first, add: both remaining products have id 2 |
| Catalog.DeleteProduct | server.js:94-102 | Fails iff no product has the id. Otherwise it removes and returns exactly the first product with that id; the rest keep their order and nothing else changes |
| Catalog.DeleteEach | server.js:155-162 | The remaining and removed products together are exactly the original catalog, as multisets; at most one product is removed per requested id |
| Catalog.BulkStartsWithSingleDelete | server.js:156-161 | The first requested id does what the single delete does: it removes the first product with that id, which heads the answer, and the rest of the list runs on what remains. An unknown id is skipped |
| Catalog.DeleteEachAppend | server.js:156-161 | Deleting the list `a + b` is deleting `a`, then deleting `b` from what remains, with the removed lists concatenated in that order |
| Catalog.DuplicateIdRemovesFirst | server.js:157-160 | With two products sharing an id, deleting that id removes the earlier one and keeps the later |
| Catalog.RepeatedRequestOrder | server.js:156-161 | The ids [2, 1, 2] against products 1 and 2 return product 2 then product 1 and empty the catalog |
| Catalog.DeleteProducts | server.js:147-162 | Rejected iff the id list is not an array or is empty. Otherwise the catalog and the returned list partition the original products, and only the catalog changes |
| Catalog.DeleteEachCount | server.js:156-161 | For every id, the number of products removed is the smaller of how often it was requested and how many products carry it. Unknown ids remove nothing |
| Catalog.DeleteEachKeepsOrder | server.js:156-161 | The remaining catalog is a subsequence of the original (order kept) |
| Catalog.DeleteEachRequestOrder | server.js:156-159 | The ids of the removed products, in order, form a subsequence of the requested ids |
| Catalog.DeleteProductsSpec | server.js:150-162 | Bulk deletion of a non-empty list succeeds and keeps catalog order. The ids of the returned products form a subsequence of the request, and each id removes min(requested, present) products. The exact order of the returned list is fixed by `Catalog.BulkStartsWithSingleDelete` and `Catalog.DeleteEachAppend` |
| Catalog.SingleDeleteIsBulkOfOne | server.js:94-102 | Deleting one id equals bulk-deleting the one-element list; an unknown id leaves the catalog as it was |
| Cart.MergeLine | server.js:137-142 | Without a line for the product, exactly one line is appended at the end; with one, the number of lines is unchanged |
| Cart.MergeLineUpdatesFirst | server.js:137-139 | With a line for the product, the first such line grows by the quantity and every other line is untouched |
| Cart.MergeLineQuantities | server.js:137-142 | Seen as a bag, the cart gains exactly `q` of the product and every other product's quantity is unchanged |
| Cart.MergeLineWellFormed | server.js:137-142 | Merging a positive quantity keeps lines unique by product id and all quantities at least 1 |
| Cart.AddToCart | server.js:116-145 | A missing or zero id or a quantity below 1 is rejected as invalid. Otherwise an unknown user gets `UserMissing`, and then a known user with an unknown product gets `ProductNotFound` with that id. Succeeds iff none of these applies, and then only that user's cart changes, to the merged lines |
| Cart.AddToCartKeepsValid | server.js:133-142 | A successful cart add keeps the shop invariant |
| Cart.SecondAddAccepted | server.js:120-131 | After a successful add, adding the same product again is accepted exactly when the quantity is at least 1 |
| Cart.AppendThenMerge | server.js:137-139 | A line just appended for a new product absorbs the next merge of that product |
| Cart.AddTwiceMerges | server.js:137-139 | Adding a product twice leaves one line with the summed quantity, appended after the earlier lines |
| Cart.ClearCart | server.js:196-198 | The user's cart becomes an empty entry; every other cart and all other collections are unchanged |
| Cart.ClearCartKeepsValid | server.js:198 | Clearing a cart keeps the shop invariant |
| Cart.ResolveLine | server.js:182-189 | Keeps the product id and quantity. The line total is the line's cost. A missing product shows the unknown name and price 0. A found product shows its price, and its name, or the unknown name when the name is empty |
| Cart.SumTotalsIsCartCost | server.js:192 | Summing the displayed line totals gives the cart's value |
| Cart.CartDetails | server.js:177-193 | One entry per cart line, in order, with its product id and quantity. A missing product gives the unknown name, price 0 and total 0. A found product gives its price, its name (the unknown name when empty) and price × quantity. `totalAmount` is the cart's value. No cart gives an empty list |
| Cart.MissingProductStaysVisible | server.js:182-188 | A line whose product was deleted stays in the display with its quantity, the unknown name and total 0 |
| Transactions.TransactionsOf | server.js:246-249 | Contains exactly the user's transactions, as an order-preserving subsequence of the log |
| Transactions.TransactionsOfAppend | server.js:248 | Appending a record extends only its owner's view, at the end |
| Checkout.PriceLines | server.js:216-227 | Succeeds iff every line's product exists, and then yields one purchased entry per cart line |
| Checkout.FirstMissing | server.js:219-222 | Returns the position of the first cart line whose product is not in the catalog |
| Checkout.PriceLinesItem | server.js:220-226 | Entry `i` is the snapshot of line `i`'s product, with the line's quantity and price × quantity |
| Checkout.PriceLinesItems | server.js:219-227 | The purchased entries follow cart order, one per line |
| Checkout.PriceLinesTotal | server.js:224-225 | The total of a successful pricing is the cart's value, the sum of price × quantity over the lines |
| Checkout.PriceLinesError | server.js:220-222 | A failed pricing reports the id of the first line whose product is missing |
| Checkout.Checkout | server.js:204-242 | Errors in order: unknown user, empty or absent cart, first missing product, insufficient balance. Commits iff the balance covers the cart's value. A commit debits the first matching user (new balance ≥ 0), empties that cart, appends exactly one transaction and leaves products, other users and other carts unchanged |
| Checkout.CheckoutKeepsValid | server.js:229-231 | A committed checkout keeps the shop invariant, including non-negative balances |
| Checkout.CheckoutChargesDisplayedTotal | server.js:224-225 | Checkout charges exactly the cart display's total, and each purchased entry matches its displayed line |
| Checkout.NoDoubleCheckout | server.js:231 | After a commit, an immediate second checkout fails with an empty cart |
| Checkout.CheckoutLogsOneTransaction | server.js:232-233 | The buyer's history gains exactly the new record; other users' histories are unchanged |
| Checkout.DeletedProductBlocksCheckout | server.js:219-223 | A cart line whose product is gone makes checkout fail with a product-not-found error, while the display still shows the line at 0 |
| Server.AddProductRoute | server.js:79-91 | Fails iff the name, price or image is missing, and then leaves the state unchanged; otherwise answers with the product, which is appended to the catalog |
| Server.DeleteProductRoute | server.js:94-113 | Fails iff no product has the id, and then leaves the state unchanged; otherwise answers with a product carrying the id and the catalog shrinks by one |
| Server.DeleteProductsRoute | server.js:147-176 | Fails iff the id list is not an array or is empty, and then leaves the state unchanged; otherwise the remaining catalog and the answered list partition the old catalog |
| Server.CartAddRoute | server.js:116-146 | A failure leaves the state unchanged; a success answers with the user's new lines and changes only that user's cart entry |
| Server.CheckoutRoute | server.js:204-242 | Fails iff the checkout cannot commit, and then leaves the state unchanged. A success answers with a receipt whose balance is not negative, and appends to the log exactly one record: the buyer, the receipt's purchased entries, the cart's value and the date |
| Server.Handle | server.js:55-249 | A failed request and every read-only route leave the state unchanged; a checkout answer never reports a negative balance. The read-only answers, including `GET /products` (server.js:77), come from the helper `Server.ReadRoute` |
| Server.HandleKeepsValid | server.js:55-249 | Every route keeps the shop invariant |
| Server.RunKeepsValid | server.js:55-249 | Over any sequence of requests, user ids stay distinct and below the counter, balances stay non-negative, and carts stay unique by product with positive quantities |
| Server.EndToEndPurchase | server.js:55-242 | On a fresh server, a user buys 3 of a product priced 100: the balance goes to 49700, one transaction of 300 is logged and the cart is empty |

## Left out

- Express routing, body parsing, CORS, static serving and the listening socket: framework wiring.
- Multer upload storage and its `Date.now()` file names: the stored file name is a parameter.
- Deleting a removed product's image file: filesystem I/O.
- Loading the JSON files and the `writeFileSync` calls after each mutation: persistence is modelled as "the state after the operation".
- The try/catch 500 answer of bulk delete: it can only come from a failed file write.
- `parseInt`, `Number(price)`, NaN and JavaScript truthiness quirks beyond the missing-or-zero id test: inputs are typed as integers. For example, a missing `quantity` would slip past `quantity < 1` in the server; here a quantity is always an integer.
- HTTP status codes and message texts: only the error kind is modelled.
- Floating-point prices: prices and balances are integers.
- Server.RunKeepsValid: user ids and the counter are unbounded integers, so the distinct-id promise holds in the model but in the server only below 2^53. JavaScript numbers stop being exact there: `nextUserId++` no longer advances, and a generated id can repeat (a `users.json` holding id 2^53 reaches this on the first generated user).
- Cart.MergeLineQuantities: cart quantities are unbounded integers; in the server they are JavaScript numbers, so from 2^53 on `existingItem.quantity += quantity` (server.js:139) can round, and the cart then gains less than `q`.
- Checkout.Checkout: prices, quantities, line totals and balances are exact integers here; in the server `product.price * item.quantity` and the running total (server.js:224-225) round once they pass 2^53, so a checkout near that size can commit where the model answers `InsufficientBalance`, or the reverse.
- Decimal.IntToString: JavaScript prints numbers from 10^21 on in exponent form (`1e+21`); the rendering here is plain decimal for every integer.
- `new Date()`: the transaction date is an opaque parameter.
- Console logging.
- The browser page (index.js): DOM rendering and `fetch` calls. Its client-side quantity checks only duplicate the server's check.
- Concurrency between requests: the server handles one request at a time, and the model applies requests one after another.

=== FILE: cart.dfy ===
/** The cart store: adding with merge, clearing, and resolving a cart
    against the catalog for display. */
module Cart {
  import opened Wrappers
  import opened Seqs
  import opened ShopState

  /** Total quantity of product `x` over the lines (the cart seen as a bag). */
  function QuantityOf(lines: seq<CartLine>, x: int): int {
    if |lines| == 0 then 0
    else (if lines[0].productId == x then lines[0].quantity else 0) + QuantityOf(lines[1..], x)
  }

  predicate HasLine(lines: seq<CartLine>, pid: int) {
    exists j :: 0 <= j < |lines| && lines[j].productId == pid
  }

  /** Line `i` is the first line for product `pid`. */
  predicate FirstLineFor(lines: seq<CartLine>, pid: int, i: int) {
    0 <= i < |lines| && lines[i].productId == pid && forall j :: 0 <= j < i ==> lines[j].productId != pid
  }

  /** Adds `q` items of `pid` to a cart: the first line for `pid` grows by
      `q`; without such a line, one is appended at the end. */
  function MergeLine(lines: seq<CartLine>, pid: int, q: int): (r: seq<CartLine>)
    ensures !HasLine(lines, pid) ==> r == lines + [CartLine(pid, q)]
    ensures HasLine(lines, pid) ==> |r| == |lines|
    decreases |lines|
  {
    if |lines| == 0 then [CartLine(pid, q)]
    else if lines[0].productId == pid then [CartLine(pid, lines[0].quantity + q)] + lines[1..]
    else
      assert HasLine(lines, pid) ==> HasLine(lines[1..], pid);
      assert lines == [lines[0]] + lines[1..];
      [lines[0]] + MergeLine(lines[1..], pid, q)
  }

  /** With a line for `pid`, merging updates exactly the first such line. */
  lemma {:induction false} MergeLineUpdatesFirst(lines: seq<CartLine>, pid: int, q: int, i: int)
    requires FirstLineFor(lines, pid, i)
    ensures MergeLine(lines, pid, q) == lines[i := CartLine(pid, lines[i].quantity + q)]
    decreases i
  {
    if i > 0 {
      var tail := lines[1..];
      assert FirstLineFor(tail, pid, i - 1);
      MergeLineUpdatesFirst(tail, pid, q, i - 1);
      assert lines[i := CartLine(pid, lines[i].quantity + q)]
          == [lines[0]] + tail[i - 1 := CartLine(pid, lines[i].quantity + q)];
    }
  }

  /** Merging adds exactly `q` to the quantity of `pid` and leaves every
      other product's quantity as it was. */
  lemma {:induction false} MergeLineQuantities(lines: seq<CartLine>, pid: int, q: int, x: int)
    ensures QuantityOf(MergeLine(lines, pid, q), x) == QuantityOf(lines, x) + (if x == pid then q else 0)
    decreases |lines|
  {
    var r := MergeLine(lines, pid, q);
    if |lines| == 0 {
      assert r[1..] == [];
    } else if lines[0].productId == pid {
      assert r[1..] == lines[1..];
    } else {
      MergeLineQuantities(lines[1..], pid, q, x);
      assert r[1..] == MergeLine(lines[1..], pid, q);
    }
  }

  /** Merging a positive quantity keeps lines unique by product id and positive. */
  lemma MergeLineWellFormed(lines: seq<CartLine>, pid: int, q: int)
    requires WellFormedCart(lines) && q >= 1
    ensures WellFormedCart(MergeLine(lines, pid, q))
  {
    if HasLine(lines, pid) {
      var i :| 0 <= i < |lines| && lines[i].productId == pid;
      assert FirstLineFor(lines, pid, i);
      MergeLineUpdatesFirst(lines, pid, q, i);
    }
  }

  /** Both ids are present and non-zero and the quantity is at least 1. */
  predicate CompleteRequest(userId: Option<int>, productId: Option<int>, quantity: int) {
    userId.Some? && userId.value != 0 && productId.Some? && productId.value != 0 && quantity >= 1
  }

  /** POST /cart/add. A missing id is `None`; an id of 0 is rejected too,
      as the server's truthiness test does. */
  function AddToCart(s: Shop, userId: Option<int>, productId: Option<int>, quantity: int): (r: Result<(Shop, seq<CartLine>), Error>)
    ensures !CompleteRequest(userId, productId, quantity) ==> r == Err(InvalidCartRequest)
    ensures r.Ok? <==> (&& CompleteRequest(userId, productId, quantity)
                        && (exists j :: 0 <= j < |s.users| && s.users[j].id == userId.value)
                        && (exists j :: 0 <= j < |s.products| && s.products[j].id == productId.value))
    ensures r.Err? && r.error == UserMissing ==> forall j :: 0 <= j < |s.users| ==> s.users[j].id != userId.value
    ensures r.Err? && r.error.ProductNotFound? ==>
              (exists j :: 0 <= j < |s.users| && s.users[j].id == userId.value) && r.error.id == productId.value
    ensures (&& CompleteRequest(userId, productId, quantity)
             && (forall j :: 0 <= j < |s.users| ==> s.users[j].id != userId.value))
            ==> r == Err(UserMissing)
    ensures (&& CompleteRequest(userId, productId, quantity)
             && (exists j :: 0 <= j < |s.users| && s.users[j].id == userId.value)
             && (forall j :: 0 <= j < |s.products| ==> s.products[j].id != productId.value))
            ==> r == Err(ProductNotFound(productId.value))
    ensures r.Ok? ==> r.value.0 == s.(cart := s.cart[userId.value := r.value.1])
    ensures r.Ok? ==> r.value.1 == MergeLine(CartOf(s.cart, userId.value), productId.value, quantity)
  {
    if !CompleteRequest(userId, productId, quantity) then Err(InvalidCartRequest)
    else if UserIndex(s.users, userId.value).None? then Err(UserMissing)
    else if FindProduct(s.products, productId.value).None? then Err(ProductNotFound(productId.value))
    else
      var lines := MergeLine(CartOf(s.cart, userId.value), productId.value, quantity);
      Ok((s.(cart := s.cart[userId.value := lines]), lines))
  }

  /** Adding to a cart keeps the shop invariant. */
  lemma AddToCartKeepsValid(s: Shop, userId: Option<int>, productId: Option<int>, quantity: int)
    requires Valid(s)
    requires AddToCart(s, userId, productId, quantity).Ok?
    ensures Valid(AddToCart(s, userId, productId, quantity).value.0)
  {
    MergeLineWellFormed(CartOf(s.cart, userId.value), productId.value, quantity);
  }

  /** After a successful add, a second add of the same product by the same
      user is accepted exactly when its quantity is valid. */
  lemma SecondAddAccepted(s: Shop, u: int, p: int, a: int, b: int)
    requires AddToCart(s, Some(u), Some(p), a).Ok?
    ensures AddToCart(AddToCart(s, Some(u), Some(p), a).value.0, Some(u), Some(p), b).Ok? <==> b >= 1
  {
    var s1 := AddToCart(s, Some(u), Some(p), a).value.0;
    assert s1.users == s.users && s1.products == s.products;
  }

  /** Adding the same product twice yields one line with the summed quantity. */
  lemma AddTwiceMerges(s: Shop, u: int, p: int, a: int, b: int)
    requires AddToCart(s, Some(u), Some(p), a).Ok?
    requires !HasLine(CartOf(s.cart, u), p)
    ensures var s1 := AddToCart(s, Some(u), Some(p), a).value.0;
            AddToCart(s1, Some(u), Some(p), b).Ok? <==> b >= 1
    ensures var s1 := AddToCart(s, Some(u), Some(p), a).value.0;
            b >= 1 ==> AddToCart(s1, Some(u), Some(p), b).value.1 == CartOf(s.cart, u) + [CartLine(p, a + b)]
  {
    SecondAddAccepted(s, u, p, a, b);
    var lines := CartOf(s.cart, u);
    AppendThenMerge(lines, p, a, b);
    assert CartOf(AddToCart(s, Some(u), Some(p), a).value.0.cart, u) == lines + [CartLine(p, a)];
  }

  /** A line appended for a new product absorbs the next merge of that product. */
  lemma AppendThenMerge(lines: seq<CartLine>, p: int, a: int, b: int)
    requires !HasLine(lines, p)
    ensures MergeLine(lines + [CartLine(p, a)], p, b) == lines + [CartLine(p, a + b)]
  {
    var once := lines + [CartLine(p, a)];
    assert FirstLineFor(once, p, |lines|);
    MergeLineUpdatesFirst(once, p, b, |lines|);
    assert once[|lines| := CartLine(p, a + b)] == lines + [CartLine(p, a + b)];
  }

  /** DELETE /cart/:userId: the user's lines become empty; nothing else changes. */
  function ClearCart(s: Shop, userId: int): (r: Shop)
    ensures userId in r.cart && CartOf(r.cart, userId) == []
    ensures forall u :: u != userId ==> CartOf(r.cart, u) == CartOf(s.cart, u)
    ensures r.cart.Keys == s.cart.Keys + {userId}
    ensures r.products == s.products && r.users == s.users && r.nextUserId == s.nextUserId
    ensures r.transactions == s.transactions
  {
    s.(cart := s.cart[userId := []])
  }

  lemma ClearCartKeepsValid(s: Shop, userId: int)
    requires Valid(s)
    ensures Valid(ClearCart(s, userId))
  {
  }

  /** The name shown for a line whose product cannot be resolved. */
  const UnknownProduct := "未知商品"

  /** A cart line resolved against the catalog, as GET /cart/:userId lists it. */
  datatype CartEntry = CartEntry(productId: int, name: string, price: int, quantity: int, totalPrice: int)

  datatype CartView = CartView(cart: seq<CartEntry>, totalAmount: int)

  /** What a line costs against the catalog: price times quantity, or 0 when
      the product is not in the catalog. */
  function LineCost(ps: seq<Product>, line: CartLine): int {
    match FindProduct(ps, line.productId)
    case None => 0
    case Some(p) => p.price * line.quantity
  }

  /** The value of a cart: the sum of its line costs. */
  function CartCost(ps: seq<Product>, lines: seq<CartLine>): int {
    if |lines| == 0 then 0 else LineCost(ps, lines[0]) + CartCost(ps, lines[1..])
  }

  function ResolveLine(ps: seq<Product>, line: CartLine): (e: CartEntry)
    ensures e.productId == line.productId && e.quantity == line.quantity
    ensures e.totalPrice == LineCost(ps, line)
    ensures FindProduct(ps, line.productId).None? ==> e.name == UnknownProduct && e.price == 0
    ensures FindProduct(ps, line.productId).Some? ==> e.price == FindProduct(ps, line.productId).value.price
    ensures FindProduct(ps, line.productId).Some? && FindProduct(ps, line.productId).value.name != "" ==>
              e.name == FindProduct(ps, line.productId).value.name
    ensures FindProduct(ps, line.productId).Some? && FindProduct(ps, line.productId).value.name == "" ==>
              e.name == UnknownProduct
  {
    match FindProduct(ps, line.productId)
    case None => CartEntry(line.productId, UnknownProduct, 0, line.quantity, 0)
    case Some(p) =>
      CartEntry(line.productId, if p.name == "" then UnknownProduct else p.name, p.price,
                line.quantity, p.price * line.quantity)
  }

  /** The `reduce` over line totals. */
  function SumTotals(es: seq<CartEntry>): int {
    if |es| == 0 then 0 else es[0].totalPrice + SumTotals(es[1..])
  }

  lemma {:induction false} SumTotalsIsCartCost(ps: seq<Product>, lines: seq<CartLine>, es: seq<CartEntry>)
    requires |es| == |lines|
    requires forall i :: 0 <= i < |lines| ==> es[i].totalPrice == LineCost(ps, lines[i])
    ensures SumTotals(es) == CartCost(ps, lines)
    decreases |lines|
  {
    if |lines| > 0 {
      SumTotalsIsCartCost(ps, lines[1..], es[1..]);
    }
  }

  /** GET /cart/:userId: every line, in order and with its quantity, joined
      with the catalog; unknown products show price 0 and total 0; the
      total is the cart's value. A user without a cart gets an empty list. */
  function CartDetails(s: Shop, userId: int): (v: CartView)
    ensures |v.cart| == |CartOf(s.cart, userId)|
    ensures userId !in s.cart ==> v.cart == []
    ensures forall i :: 0 <= i < |v.cart| ==>
              var line := CartOf(s.cart, userId)[i];
              && v.cart[i].productId == line.productId
              && v.cart[i].quantity == line.quantity
              && (FindProduct(s.products, line.productId).None? ==>
                    v.cart[i].name == UnknownProduct && v.cart[i].price == 0 && v.cart[i].totalPrice == 0)
              && (FindProduct(s.products, line.productId).Some? ==>
                    var p := FindProduct(s.products, line.productId).value;
                    && v.cart[i].price == p.price
                    && v.cart[i].name == (if p.name == "" then UnknownProduct else p.name)
                    && v.cart[i].totalPrice == p.price * line.quantity)
    ensures v.totalAmount == CartCost(s.products, CartOf(s.cart, userId))
  {
    var lines := CartOf(s.cart, userId);
    var es := seq(|lines|, i requires 0 <= i < |lines| => ResolveLine(s.products, lines[i]));
    SumTotalsIsCartCost(s.products, lines, es);
    CartView(es, SumTotals(es))
  }

  /** A deleted product does not drop its cart line from the display: the
      line stays, with its quantity, priced at 0. */
  lemma MissingProductStaysVisible(s: Shop, userId: int, i: nat)
    requires i < |CartOf(s.cart, userId)|
    requires forall j :: 0 <= j < |s.products| ==> s.products[j].id != CartOf(s.cart, userId)[i].productId
    ensures CartDetails(s, userId).cart[i].quantity == CartOf(s.cart, userId)[i].quantity
    ensures CartDetails(s, userId).cart[i].name == UnknownProduct
    ensures CartDetails(s, userId).cart[i].totalPrice == 0
  {
  }
}

=== FILE: catalog.dfy ===
/** The product catalog: adding a product, deleting one by id and deleting a
    list of ids. Ids are assigned as the catalog's length plus one, exactly as
    the server does, so after a deletion an id can repeat. */
module Catalog {
  import opened Wrappers
  import opened Seqs
  import opened ShopState

  /** The public path the server gives an uploaded image file. */
  function ImageUrl(fileName: string): string {
    "/uploads/" + fileName
  }

  /** POST /products. `name` is empty when the field is missing, `price` is
      `None` when the field is missing or empty, `upload` is the stored file
      name of the uploaded image, `None` when no file came with the request. */
  function AddProduct(s: Shop, name: string, price: Option<int>, upload: Option<string>): (r: Result<(Shop, Product), Error>)
    ensures r.Err? <==> name == "" || price.None? || upload.None?
    ensures r.Err? ==> r.error == IncompleteProduct
    ensures r.Ok? ==> r.value.1 == Product(|s.products| + 1, name, price.value, ImageUrl(upload.value))
    ensures r.Ok? ==> r.value.0 == s.(products := s.products + [r.value.1])
  {
    if name == "" || price.None? || upload.None? then Err(IncompleteProduct)
    else
      var p := Product(|s.products| + 1, name, price.value, ImageUrl(upload.value));
      Ok((s.(products := s.products + [p]), p))
  }

  /** DELETE /products/:id: removes the first product with that id and returns it. */
  function DeleteProduct(s: Shop, id: int): (r: Result<(Shop, Product), Error>)
    ensures r.Err? <==> forall j :: 0 <= j < |s.products| ==> s.products[j].id != id
    ensures r.Err? ==> r.error == ProductMissing
    ensures r.Ok? ==> exists i: nat :: FirstWithId(s.products, id, i)
                        && r.value.1 == s.products[i]
                        && r.value.0 == s.(products := RemoveAt(s.products, i))
  {
    match FirstIndex(s.products, ProductKey, id)
    case None => Err(ProductMissing)
    case Some(i) =>
      assert FirstWithId(s.products, id, i);
      Ok((s.(products := RemoveAt(s.products, i)), s.products[i]))
  }

  /** The loop of DELETE /products: each requested id in turn removes the
      first remaining product with it; unknown ids are skipped. Returns the
      remaining catalog and the removed products in request order. */
  function DeleteEach(ps: seq<Product>, ids: seq<int>): (r: (seq<Product>, seq<Product>))
    ensures |r.0| + |r.1| == |ps|
    ensures |r.1| <= |ids|
    ensures multiset(r.0) + multiset(r.1) == multiset(ps)
    decreases |ids|
  {
    if |ids| == 0 then (ps, [])
    else match FirstIndex(ps, ProductKey, ids[0])
      case None => DeleteEach(ps, ids[1..])
      case Some(i) =>
        RemoveAtMultiset(ps, i);
        var rest := DeleteEach(RemoveAt(ps, i), ids[1..]);
        (rest.0, [ps[i]] + rest.1)
  }

  /** DELETE /products. `ids` is `None` when the body's `productIds` is not an array. */
  function DeleteProducts(s: Shop, ids: Option<seq<int>>): (r: Result<(Shop, seq<Product>), Error>)
    ensures r.Err? <==> ids.None? || |ids.value| == 0
    ensures r.Err? ==> r.error == InvalidProductIds
    ensures r.Ok? ==> r.value == (s.(products := DeleteEach(s.products, ids.value).0), DeleteEach(s.products, ids.value).1)
    ensures r.Ok? ==> multiset(r.value.0.products) + multiset(r.value.1) == multiset(s.products)
  {
    if ids.None? || |ids.value| == 0 then Err(InvalidProductIds)
    else
      var d := DeleteEach(s.products, ids.value);
      Ok((s.(products := d.0), d.1))
  }

  function Ids(ps: seq<Product>): (r: seq<int>)
    ensures |r| == |ps|
    ensures forall i :: 0 <= i < |ps| ==> r[i] == ps[i].id
  {
    seq(|ps|, i requires 0 <= i < |ps| => ps[i].id)
  }

  /** How many products in `ps` carry id `x`. */
  function CountId(ps: seq<Product>, x: int): nat {
    multiset(Ids(ps))[x]
  }

  function Min(a: int, b: int): int { if a <= b then a else b }

  lemma CountIdRemoveAt(ps: seq<Product>, i: nat, x: int)
    requires i < |ps|
    ensures CountId(ps, x) == CountId(RemoveAt(ps, i), x) + (if ps[i].id == x then 1 else 0)
  {
    assert Ids(ps) == Ids(RemoveAt(ps, i))[..i] + [ps[i].id] + Ids(RemoveAt(ps, i))[i..];
    assert Ids(RemoveAt(ps, i)) == Ids(RemoveAt(ps, i))[..i] + Ids(RemoveAt(ps, i))[i..];
  }

  lemma CountIdAbsent(ps: seq<Product>, x: int)
    requires forall j :: 0 <= j < |ps| ==> ps[j].id != x
    ensures CountId(ps, x) == 0
  {
    assert x !in Ids(ps);
  }

  lemma CountIdCons(p: Product, ps: seq<Product>, x: int)
    ensures CountId([p] + ps, x) == CountId(ps, x) + (if p.id == x then 1 else 0)
  {
    assert Ids([p] + ps) == [p.id] + Ids(ps);
  }

  lemma MultisetHead(ids: seq<int>, x: int)
    requires |ids| > 0
    ensures multiset(ids)[x] == multiset(ids[1..])[x] + (if ids[0] == x then 1 else 0)
  {
    assert ids == [ids[0]] + ids[1..];
  }

  /** Bulk delete removes, for each id, as many products as the id is
      requested, but never more than the catalog holds: every found id is
      returned and every unknown id is skipped. */
  lemma {:induction false} DeleteEachCount(ps: seq<Product>, ids: seq<int>, x: int)
    ensures CountId(DeleteEach(ps, ids).1, x) == Min(multiset(ids)[x], CountId(ps, x))
    decreases |ids|
  {
    if |ids| == 0 {
      assert Ids([]) == [];
    } else {
      MultisetHead(ids, x);
      var k := FirstIndex(ps, ProductKey, ids[0]);
      if k.None? {
        DeleteEachCountSkip(ps, ids, x);
      } else {
        DeleteEachCountFound(ps, ids, x, k.value);
      }
    }
  }

  lemma {:induction false} DeleteEachCountSkip(ps: seq<Product>, ids: seq<int>, x: int)
    requires |ids| > 0 && FirstIndex(ps, ProductKey, ids[0]).None?
    requires multiset(ids)[x] == multiset(ids[1..])[x] + (if ids[0] == x then 1 else 0)
    ensures CountId(DeleteEach(ps, ids).1, x) == Min(multiset(ids)[x], CountId(ps, x))
    decreases |ids|, 0
  {
    assert DeleteEach(ps, ids) == DeleteEach(ps, ids[1..]);
    DeleteEachCount(ps, ids[1..], x);
    if ids[0] == x {
      CountIdAbsent(ps, x);
    }
  }

  lemma {:induction false} DeleteEachCountFound(ps: seq<Product>, ids: seq<int>, x: int, i: nat)
    requires |ids| > 0 && FirstIndex(ps, ProductKey, ids[0]) == Some(i)
    requires multiset(ids)[x] == multiset(ids[1..])[x] + (if ids[0] == x then 1 else 0)
    ensures CountId(DeleteEach(ps, ids).1, x) == Min(multiset(ids)[x], CountId(ps, x))
    decreases |ids|, 0
  {
    var smaller := RemoveAt(ps, i);
    var rest := DeleteEach(smaller, ids[1..]);
    assert DeleteEach(ps, ids).1 == [ps[i]] + rest.1;
    DeleteEachCount(smaller, ids[1..], x);
    CountIdRemoveAt(ps, i, x);
    CountIdCons(ps[i], rest.1, x);
  }

  /** The remaining catalog keeps the original order. */
  lemma {:induction false} DeleteEachKeepsOrder(ps: seq<Product>, ids: seq<int>)
    ensures IsSubseq(DeleteEach(ps, ids).0, ps)
    decreases |ids|
  {
    if |ids| == 0 {
      SubseqRefl(ps);
    } else {
      match FirstIndex(ps, ProductKey, ids[0])
      case None =>
        DeleteEachKeepsOrder(ps, ids[1..]);
      case Some(i) =>
        DeleteEachKeepsOrder(RemoveAt(ps, i), ids[1..]);
        RemoveAtIsSubseq(ps, i);
        SubseqTrans(DeleteEach(ps, ids).0, RemoveAt(ps, i), ps);
    }
  }

  /** The removed products come out in the order their ids were requested. */
  lemma {:induction false} DeleteEachRequestOrder(ps: seq<Product>, ids: seq<int>)
    ensures IsSubseq(Ids(DeleteEach(ps, ids).1), ids)
    decreases |ids|
  {
    if |ids| == 0 {
    } else {
      match FirstIndex(ps, ProductKey, ids[0])
      case None =>
        DeleteEachRequestOrder(ps, ids[1..]);
        var d := Ids(DeleteEach(ps, ids).1);
        if |d| > 0 {
          assert IsSubseq(d, ids[1..]);
        }
      case Some(i) =>
        DeleteEachRequestOrder(RemoveAt(ps, i), ids[1..]);
        var d := Ids(DeleteEach(ps, ids).1);
        assert d[0] == ids[0];
        assert d[1..] == Ids(DeleteEach(RemoveAt(ps, i), ids[1..]).1);
    }
  }

  /** Bulk deletion as a whole: order kept, removed entries exactly
      partition the catalog, and each id removes min(requested, present). */
  lemma DeleteProductsSpec(s: Shop, ids: seq<int>)
    requires |ids| > 0
    ensures DeleteProducts(s, Some(ids)).Ok?
    ensures var (s', deleted) := DeleteProducts(s, Some(ids)).value;
            && IsSubseq(s'.products, s.products)
            && IsSubseq(Ids(deleted), ids)
            && (forall x :: CountId(deleted, x) == Min(multiset(ids)[x], CountId(s.products, x)))
  {
    DeleteEachKeepsOrder(s.products, ids);
    DeleteEachRequestOrder(s.products, ids);
    forall x ensures CountId(DeleteEach(s.products, ids).1, x) == Min(multiset(ids)[x], CountId(s.products, x)) {
      DeleteEachCount(s.products, ids, x);
    }
  }

  /** Deleting one id alone is the bulk delete of the one-element list. */
  lemma SingleDeleteIsBulkOfOne(s: Shop, id: int)
    ensures DeleteProduct(s, id).Ok? ==>
              DeleteProducts(s, Some([id])) == Ok((DeleteProduct(s, id).value.0, [DeleteProduct(s, id).value.1]))
    ensures DeleteProduct(s, id).Err? ==>
              DeleteProducts(s, Some([id])) == Ok((s, []))
  {
    assert [id][1..] == [];
    match FirstIndex(s.products, ProductKey, id)
    case None =>
      assert DeleteEach(s.products, [id]) == DeleteEach(s.products, []);
    case Some(i) =>
      var rest := RemoveAt(s.products, i);
      assert DeleteEach(rest, [id][1..]) == (rest, []);
      assert [s.products[i]] + [] == [s.products[i]];
      assert DeleteEach(s.products, [id]) == (rest, [s.products[i]]);
      assert DeleteProduct(s, id) == Ok((s.(products := rest), s.products[i]));
  }

  /** Bulk delete starts with the single delete of the first requested id:
      the product `DeleteProduct` removes comes first in the answer, and the
      rest of the list runs against the catalog it leaves. */
  lemma BulkStartsWithSingleDelete(s: Shop, id: int, rest: seq<int>)
    ensures DeleteProduct(s, id).Ok? ==>
              var (s1, p) := DeleteProduct(s, id).value;
              DeleteEach(s.products, [id] + rest)
                == (DeleteEach(s1.products, rest).0, [p] + DeleteEach(s1.products, rest).1)
    ensures DeleteProduct(s, id).Err? ==> DeleteEach(s.products, [id] + rest) == DeleteEach(s.products, rest)
  {
    assert ([id] + rest)[1..] == rest;
  }

  /** Bulk delete of `a + b` is bulk delete of `a` followed by bulk delete of
      `b` on what remains, the removed lists concatenated in that order. */
  lemma {:induction false} DeleteEachAppend(ps: seq<Product>, a: seq<int>, b: seq<int>)
    ensures var first := DeleteEach(ps, a);
            var second := DeleteEach(first.0, b);
            DeleteEach(ps, a + b) == (second.0, first.1 + second.1)
    decreases |a|
  {
    if |a| == 0 {
      assert a + b == b;
      assert [] + DeleteEach(ps, b).1 == DeleteEach(ps, b).1;
    } else {
      assert (a + b)[0] == a[0];
      assert (a + b)[1..] == a[1..] + b;
      match FirstIndex(ps, ProductKey, a[0])
      case None =>
        DeleteEachAppend(ps, a[1..], b);
      case Some(i) =>
        var smaller := RemoveAt(ps, i);
        DeleteEachAppend(smaller, a[1..], b);
        var first := DeleteEach(smaller, a[1..]);
        var second := DeleteEach(first.0, b);
        assert [ps[i]] + (first.1 + second.1) == ([ps[i]] + first.1) + second.1;
    }
  }

  /** With two products sharing an id, deleting that id removes the earlier one. */
  lemma DuplicateIdRemovesFirst(a: Product, b: Product)
    requires a.id == b.id && a != b
    ensures DeleteEach([a, b], [a.id]) == ([b], [a])
  {
    assert FirstIndex([a, b], ProductKey, a.id) == Some(0);
    assert RemoveAt([a, b], 0) == [b];
    assert [a.id][1..] == [];
    assert DeleteEach([b], []) == ([b], []);
    assert DeleteEach([a, b], [a.id]) == (DeleteEach([b], []).0, [[a, b][0]] + DeleteEach([b], []).1);
    assert [a] + [] == [a];
  }

  /** Removed products come back in the order their ids were requested:
      ids [2, 1, 2] against products 1 and 2 return product 2, then product 1. */
  lemma RepeatedRequestOrder(p1: Product, p2: Product)
    requires p1.id == 1 && p2.id == 2
    ensures DeleteEach([p1, p2], [2, 1, 2]) == ([], [p2, p1])
  {
    assert FirstIndex([p1, p2], ProductKey, 2) == Some(1);
    assert RemoveAt([p1, p2], 1) == [p1];
    assert [2, 1, 2][1..] == [1, 2];
    assert FirstIndex([p1], ProductKey, 1) == Some(0);
    assert RemoveAt([p1], 0) == [];
    assert [1, 2][1..] == [2];
    assert [2][1..] == [];
    assert DeleteEach([], [2]) == ([], []);
    assert [p1][0] == p1;
    assert DeleteEach([p1], [1, 2]) == (DeleteEach([], [2]).0, [p1] + DeleteEach([], [2]).1);
    assert [p1] + [] == [p1];
    assert DeleteEach([p1], [1, 2]) == ([], [p1]);
    assert DeleteEach([p1, p2], [2, 1, 2]) == (DeleteEach([p1], [1, 2]).0, [[p1, p2][1]] + DeleteEach([p1], [1, 2]).1);
    assert [p2] + [p1] == [p2, p1];
  }

  /** When only additions have built the catalog, product `i` has id `i + 1`. */
  predicate SequentialIds(ps: seq<Product>) {
    forall i :: 0 <= i < |ps| ==> ps[i].id == i + 1
  }

  lemma AddKeepsSequentialIds(s: Shop, name: string, price: Option<int>, upload: Option<string>)
    requires SequentialIds(s.products)
    requires AddProduct(s, name, price, upload).Ok?
    ensures SequentialIds(AddProduct(s, name, price, upload).value.0.products)
  {
  }

  /** After a deletion the next addition can reuse an id still in the catalog:
      two products added, the first deleted, a third added: both remaining
      products have id 2. */
  lemma IdRepeatsAfterDelete(s: Shop, file: string)
    requires s.products == []
    ensures var s1 := AddProduct(s, "a", Some(1), Some(file)).value.0;
            var s2 := AddProduct(s1, "b", Some(1), Some(file)).value.0;
            var s3 := DeleteProduct(s2, 1).value.0;
            var s4 := AddProduct(s3, "c", Some(1), Some(file)).value.0;
            |s4.products| == 2 && s4.products[0].id == 2 && s4.products[1].id == 2
  {
    var s1 := AddProduct(s, "a", Some(1), Some(file)).value.0;
    var s2 := AddProduct(s1, "b", Some(1), Some(file)).value.0;
    assert s2.products[0].id == 1;
    assert FirstIndex(s2.products, ProductKey, 1) == Some(0);
    var s3 := DeleteProduct(s2, 1).value.0;
    assert s3 == s2.(products := RemoveAt(s2.products, 0));
    assert s3.products == [s2.products[1]];
  }
}

=== FILE: checkout.dfy ===
/** The checkout engine: price the user's cart against the catalog, then
    either commit (debit, clear the cart, log the transaction) or change
    nothing at all. */
module Checkout {
  import opened Wrappers
  import opened ShopState
  import opened Cart
  import opened Transactions

  predicate Resolves(ps: seq<Product>, line: CartLine) {
    FindProduct(ps, line.productId).Some?
  }

  predicate AllResolve(ps: seq<Product>, lines: seq<CartLine>) {
    forall i :: 0 <= i < |lines| ==> Resolves(ps, lines[i])
  }

  /** Line `k` is the first whose product is not in the catalog. */
  predicate FirstUnresolved(ps: seq<Product>, lines: seq<CartLine>, k: nat) {
    && k < |lines|
    && !Resolves(ps, lines[k])
    && forall j :: 0 <= j < k ==> Resolves(ps, lines[j])
  }

  /** The purchased entry for a line: the product snapshot, the quantity and the line price. */
  function Purchase(p: Product, quantity: int): PurchasedItem {
    PurchasedItem(p, quantity, p.price * quantity)
  }

  datatype Priced = Priced(items: seq<PurchasedItem>, total: int)

  /** The position of the first line whose product is missing. */
  function FirstMissing(ps: seq<Product>, lines: seq<CartLine>): (k: nat)
    requires !AllResolve(ps, lines)
    ensures FirstUnresolved(ps, lines, k)
    decreases |lines|
  {
    if !Resolves(ps, lines[0]) then 0
    else
      assert forall i :: 1 <= i < |lines| ==> lines[1..][i - 1] == lines[i];
      FirstMissing(ps, lines[1..]) + 1
  }

  /** The pricing loop of checkout: it succeeds exactly when every line's
      product is in the catalog, with one purchased entry per line. */
  function PriceLines(ps: seq<Product>, lines: seq<CartLine>): (r: Result<Priced, Error>)
    ensures r.Ok? <==> AllResolve(ps, lines)
    ensures r.Ok? ==> |r.value.items| == |lines|
    decreases |lines|
  {
    if |lines| == 0 then Ok(Priced([], 0))
    else
      var head := FindProduct(ps, lines[0].productId);
      if head.None? then Err(ProductNotFound(lines[0].productId))
      else
        var rest := PriceLines(ps, lines[1..]);
        assert AllResolve(ps, lines) <==> AllResolve(ps, lines[1..]) by {
          assert forall i :: 1 <= i < |lines| ==> lines[1..][i - 1] == lines[i];
        }
        if rest.Err? then rest
        else
          var item := Purchase(head.value, lines[0].quantity);
          Ok(Priced([item] + rest.value.items, item.itemTotalPrice + rest.value.total))
  }

  /** Entry `i` is the snapshot of line `i`'s product with its quantity and price. */
  lemma {:induction false} PriceLinesItem(ps: seq<Product>, lines: seq<CartLine>, i: nat)
    requires AllResolve(ps, lines) && i < |lines|
    ensures PriceLines(ps, lines).value.items[i]
              == Purchase(FindProduct(ps, lines[i].productId).value, lines[i].quantity)
    decreases i
  {
    if i > 0 {
      var tail := lines[1..];
      assert AllResolve(ps, tail) by {
        assert forall k :: 0 <= k < |tail| ==> tail[k] == lines[k + 1];
      }
      PriceLinesItem(ps, tail, i - 1);
      assert tail[i - 1] == lines[i];
    }
  }

  /** The entries of a successful pricing, in cart order. */
  lemma PriceLinesItems(ps: seq<Product>, lines: seq<CartLine>)
    requires AllResolve(ps, lines)
    ensures forall i :: 0 <= i < |lines| ==>
              PriceLines(ps, lines).value.items[i]
                == Purchase(FindProduct(ps, lines[i].productId).value, lines[i].quantity)
  {
    forall i | 0 <= i < |lines|
      ensures PriceLines(ps, lines).value.items[i]
                == Purchase(FindProduct(ps, lines[i].productId).value, lines[i].quantity)
    {
      PriceLinesItem(ps, lines, i);
    }
  }

  /** A successful pricing totals the cart's value. */
  lemma {:induction false} PriceLinesTotal(ps: seq<Product>, lines: seq<CartLine>)
    requires AllResolve(ps, lines)
    ensures PriceLines(ps, lines).value.total == CartCost(ps, lines)
    decreases |lines|
  {
    if |lines| > 0 {
      var tail := lines[1..];
      assert AllResolve(ps, tail) by {
        assert forall k :: 0 <= k < |tail| ==> tail[k] == lines[k + 1];
      }
      PriceLinesTotal(ps, tail);
    }
  }

  /** A failed pricing names the first line whose product is missing. */
  lemma {:induction false} PriceLinesError(ps: seq<Product>, lines: seq<CartLine>)
    requires !AllResolve(ps, lines)
    ensures PriceLines(ps, lines) == Err(ProductNotFound(lines[FirstMissing(ps, lines)].productId))
    decreases |lines|
  {
    if Resolves(ps, lines[0]) {
      var tail := lines[1..];
      assert !AllResolve(ps, tail) by {
        assert forall k :: 0 <= k < |tail| ==> tail[k] == lines[k + 1];
      }
      PriceLinesError(ps, tail);
      assert FirstMissing(ps, lines) == FirstMissing(ps, tail) + 1;
    }
  }

  /** The success answer: the new balance and the purchased entries. */
  datatype Receipt = Receipt(balance: int, purchasedProducts: seq<PurchasedItem>)

  /** The balance of the user checkout acts on: the first with that id. */
  function BuyerBalance(s: Shop, userId: int): int
    requires UserIndex(s.users, userId).Some?
  {
    s.users[UserIndex(s.users, userId).value].balance
  }

  /** Checkout can commit: the user exists, the cart is non-empty, every line
      resolves and the balance covers the cart's value. */
  predicate CanCommit(s: Shop, userId: int) {
    && UserIndex(s.users, userId).Some?
    && |CartOf(s.cart, userId)| > 0
    && AllResolve(s.products, CartOf(s.cart, userId))
    && BuyerBalance(s, userId) >= CartCost(s.products, CartOf(s.cart, userId))
  }

  /** POST /checkout, with `date` the clock reading stamped on the transaction. */
  function Checkout(s: Shop, userId: int, date: Timestamp): (r: Result<(Shop, Receipt), Error>)
    ensures UserIndex(s.users, userId).None? ==> r == Err(UserMissing)
    ensures UserIndex(s.users, userId).Some? && |CartOf(s.cart, userId)| == 0 ==> r == Err(EmptyCart)
    ensures UserIndex(s.users, userId).Some? && |CartOf(s.cart, userId)| > 0
            && !AllResolve(s.products, CartOf(s.cart, userId)) ==>
              r == Err(ProductNotFound(CartOf(s.cart, userId)[FirstMissing(s.products, CartOf(s.cart, userId))].productId))
    ensures r == Err(InsufficientBalance) <==>
              (&& UserIndex(s.users, userId).Some?
               && |CartOf(s.cart, userId)| > 0
               && AllResolve(s.products, CartOf(s.cart, userId))
               && BuyerBalance(s, userId) < CartCost(s.products, CartOf(s.cart, userId)))
    ensures r.Ok? <==> CanCommit(s, userId)
    ensures r.Ok? ==>
              var i := UserIndex(s.users, userId).value;
              var total := CartCost(s.products, CartOf(s.cart, userId));
              var (s', receipt) := r.value;
              && receipt.balance == s.users[i].balance - total
              && receipt.balance >= 0
              && s'.users == s.users[i := s.users[i].(balance := receipt.balance)]
              && s'.cart == s.cart[userId := []]
              && s'.transactions == s.transactions + [Transaction(userId, receipt.purchasedProducts, total, date)]
              && s'.products == s.products
              && s'.nextUserId == s.nextUserId
    ensures r.Ok? ==>
              var lines := CartOf(s.cart, userId);
              var items := r.value.1.purchasedProducts;
              && |items| == |lines|
              && forall k :: 0 <= k < |lines| ==>
                   items[k] == Purchase(FindProduct(s.products, lines[k].productId).value, lines[k].quantity)
  {
    match UserIndex(s.users, userId)
    case None => Err(UserMissing)
    case Some(i) =>
      if userId !in s.cart || |s.cart[userId]| == 0 then Err(EmptyCart)
      else
        var lines := s.cart[userId];
        var priced := PriceLines(s.products, lines);
        if priced.Err? then
          PriceLinesError(s.products, lines);
          Err(priced.error)
        else
          PriceLinesItems(s.products, lines);
          PriceLinesTotal(s.products, lines);
          var total := priced.value.total;
          var user := s.users[i];
          if user.balance >= total then
            var buyer := user.(balance := user.balance - total);
            var tx := Transaction(userId, priced.value.items, total, date);
            Ok((s.(users := s.users[i := buyer],
                   cart := s.cart[userId := []],
                   transactions := s.transactions + [tx]),
                Receipt(buyer.balance, priced.value.items)))
          else Err(InsufficientBalance)
  }

  /** A committed checkout keeps the shop invariant: the debited balance is
      not negative and the cleared cart is trivially well formed. */
  lemma CheckoutKeepsValid(s: Shop, userId: int, date: Timestamp)
    requires Valid(s)
    requires Checkout(s, userId, date).Ok?
    ensures Valid(Checkout(s, userId, date).value.0)
  {
    var s' := Checkout(s, userId, date).value.0;
    var i := UserIndex(s.users, userId).value;
    assert forall j :: 0 <= j < |s'.users| ==> s'.users[j].id == s.users[j].id;
  }

  /** Checkout charges exactly the total the cart display shows, line by line. */
  lemma CheckoutChargesDisplayedTotal(s: Shop, userId: int, date: Timestamp)
    requires Checkout(s, userId, date).Ok?
    ensures var receipt := Checkout(s, userId, date).value.1;
            var view := CartDetails(s, userId);
            && receipt.balance == BuyerBalance(s, userId) - view.totalAmount
            && |receipt.purchasedProducts| == |view.cart|
            && forall k :: 0 <= k < |view.cart| ==>
                 receipt.purchasedProducts[k].itemTotalPrice == view.cart[k].totalPrice
                 && receipt.purchasedProducts[k].quantity == view.cart[k].quantity
                 && receipt.purchasedProducts[k].product.id == view.cart[k].productId
  {
  }

  /** The cart is consumed: an immediate second checkout finds it empty. */
  lemma NoDoubleCheckout(s: Shop, userId: int, date: Timestamp, later: Timestamp)
    requires Checkout(s, userId, date).Ok?
    ensures Checkout(Checkout(s, userId, date).value.0, userId, later) == Err(EmptyCart)
  {
    var s' := Checkout(s, userId, date).value.0;
    var i := UserIndex(s.users, userId).value;
    assert s'.users[i].id == userId;
  }

  /** The buyer's transaction history gains exactly the new record; every
      other user's history is unchanged. */
  lemma CheckoutLogsOneTransaction(s: Shop, userId: int, date: Timestamp, other: int)
    requires Checkout(s, userId, date).Ok?
    ensures var (s', receipt) := Checkout(s, userId, date).value;
            TransactionsOf(s'.transactions, userId) == TransactionsOf(s.transactions, userId)
              + [Transaction(userId, receipt.purchasedProducts, CartCost(s.products, CartOf(s.cart, userId)), date)]
    ensures other != userId ==>
              TransactionsOf(Checkout(s, userId, date).value.0.transactions, other) == TransactionsOf(s.transactions, other)
  {
    var (s', receipt) := Checkout(s, userId, date).value;
    var tx := Transaction(userId, receipt.purchasedProducts, CartCost(s.products, CartOf(s.cart, userId)), date);
    TransactionsOfAppend(s.transactions, tx, userId);
    TransactionsOfAppend(s.transactions, tx, other);
  }

  /** A cart line whose product has been deleted still shows in the cart
      display, but makes checkout fail with that product's id and no commit. */
  lemma DeletedProductBlocksCheckout(s: Shop, userId: int, date: Timestamp, k: nat)
    requires UserIndex(s.users, userId).Some?
    requires k < |CartOf(s.cart, userId)|
    requires forall j :: 0 <= j < |s.products| ==> s.products[j].id != CartOf(s.cart, userId)[k].productId
    ensures Checkout(s, userId, date).Err? && Checkout(s, userId, date).error.ProductNotFound?
    ensures CartDetails(s, userId).cart[k].quantity == CartOf(s.cart, userId)[k].quantity
    ensures CartDetails(s, userId).cart[k].totalPrice == 0
  {
    assert !Resolves(s.products, CartOf(s.cart, userId)[k]);
  }
}

=== FILE: decimal.dfy ===
/** Decimal rendering of integers, as JavaScript's template literals print a
    number (used for the generated user's display name), with its parser as
    the inverse that shows the rendering loses nothing. */
module Decimal {

  predicate IsDigit(c: char) {
    '0' <= c <= '9'
  }

  function DigitChar(d: nat): (c: char)
    requires d < 10
    ensures IsDigit(c)
  {
    "0123456789"[d]
  }

  function DigitValue(c: char): (d: nat)
    requires IsDigit(c)
    ensures d < 10
  {
    (c as int - '0' as int) as nat
  }

  lemma DigitRoundTrip(d: nat)
    requires d < 10
    ensures DigitValue(DigitChar(d)) == d
  {
    assert "0123456789"[d] as int == '0' as int + d;
  }

  predicate AllDigits(s: string) {
    forall i :: 0 <= i < |s| ==> IsDigit(s[i])
  }

  /** A decimal numeral: digits, optionally after a minus sign. */
  predicate IsNumeral(s: string) {
    |s| > 0 && if s[0] == '-' then AllDigits(s[1..]) else AllDigits(s)
  }

  /** The digits of `n`, most significant first, without leading zeros. */
  function NatToString(n: nat): (s: string)
    ensures |s| > 0 && AllDigits(s)
    ensures |s| > 1 ==> s[0] != '0'
    decreases n
  {
    if n < 10 then [DigitChar(n)]
    else NatToString(n / 10) + [DigitChar(n % 10)]
  }

  /** Renders an integer the way `${n}` does for a JavaScript integer whose
      magnitude is below 10^21 (larger ones print in exponent form). */
  function IntToString(n: int): (s: string)
    ensures IsNumeral(s)
    ensures n < 0 <==> s[0] == '-'
  {
    if n < 0 then
      var digits := NatToString(-n);
      assert ("-" + digits)[1..] == digits;
      "-" + digits
    else NatToString(n)
  }

  function ParseNat(s: string): (n: nat)
    requires AllDigits(s)
    decreases |s|
  {
    if |s| == 0 then 0
    else ParseNat(s[..|s| - 1]) * 10 + DigitValue(s[|s| - 1])
  }

  function ParseInt(s: string): int
    requires IsNumeral(s)
  {
    if s[0] == '-' then -(ParseNat(s[1..]) as int) else ParseNat(s)
  }

  lemma {:induction false} NatRoundTrip(n: nat)
    ensures ParseNat(NatToString(n)) == n
    decreases n
  {
    var s := NatToString(n);
    if n < 10 {
      DigitRoundTrip(n);
      assert s[..0] == [];
    } else {
      NatRoundTrip(n / 10);
      DigitRoundTrip(n % 10);
      assert s[..|s| - 1] == NatToString(n / 10);
    }
  }

  lemma NegativeRoundTrip(n: int)
    requires n < 0
    ensures ParseInt(IntToString(n)) == n
  {
    var digits := NatToString(-n);
    assert IntToString(n) == "-" + digits;
    assert ("-" + digits)[1..] == digits;
    NatRoundTrip(-n);
  }

  lemma NonNegativeRoundTrip(n: int)
    requires n >= 0
    ensures ParseInt(IntToString(n)) == n
  {
    assert IntToString(n) == NatToString(n);
    NatRoundTrip(n);
  }

  /** Parsing the rendering of any integer gives the integer back. */
  lemma IntRoundTrip(n: int)
    ensures ParseInt(IntToString(n)) == n
  {
    if n < 0 {
      NegativeRoundTrip(n);
    } else {
      NonNegativeRoundTrip(n);
    }
  }

  /** Distinct integers render differently. */
  lemma IntToStringInjective(a: int, b: int)
    requires a != b
    ensures IntToString(a) != IntToString(b)
  {
    IntRoundTrip(a);
    IntRoundTrip(b);
  }
}

=== FILE: seqs.dfy ===
/** Sequence helpers: first-match lookup (the semantics of JavaScript's
    `Array.prototype.find` / `findIndex`), removal at a position (`splice(i, 1)`)
    and the subsequence relation used to state that removals keep order. */
module Seqs {
  import opened Wrappers

  /** The index of the first element whose key equals `k`, or `None`. */
  function FirstIndex<T>(s: seq<T>, key: T -> int, k: int): (r: Option<nat>)
    ensures r.Some? ==> r.value < |s| && key(s[r.value]) == k
    ensures r.Some? ==> forall j :: 0 <= j < r.value ==> key(s[j]) != k
    ensures r.None? <==> forall j :: 0 <= j < |s| ==> key(s[j]) != k
  {
    if |s| == 0 then None
    else if key(s[0]) == k then Some(0)
    else match FirstIndex(s[1..], key, k)
      case None => None
      case Some(i) => Some(i + 1)
  }

  /** `s` with the element at position `i` taken out, the rest in order. */
  function RemoveAt<T>(s: seq<T>, i: nat): (r: seq<T>)
    requires i < |s|
    ensures |r| == |s| - 1
    ensures forall j :: 0 <= j < i ==> r[j] == s[j]
    ensures forall j :: i <= j < |r| ==> r[j] == s[j + 1]
  {
    s[..i] + s[i + 1..]
  }

  /** Removal takes exactly the one element out of the multiset. */
  lemma RemoveAtMultiset<T>(s: seq<T>, i: nat)
    requires i < |s|
    ensures multiset(RemoveAt(s, i)) + multiset{s[i]} == multiset(s)
  {
    assert s == s[..i] + [s[i]] + s[i + 1..];
  }

  /** `a` can be obtained from `b` by deleting elements, keeping the order of the rest. */
  predicate IsSubseq<T(==)>(a: seq<T>, b: seq<T>)
    decreases |b|
  {
    if |a| == 0 then true
    else if |b| == 0 then false
    else (a[0] == b[0] && IsSubseq(a[1..], b[1..])) || IsSubseq(a, b[1..])
  }

  lemma {:induction false} SubseqRefl<T>(a: seq<T>)
    ensures IsSubseq(a, a)
    decreases |a|
  {
    if |a| > 0 {
      SubseqRefl(a[1..]);
    }
  }

  lemma {:induction false} SubseqTrans<T>(a: seq<T>, b: seq<T>, c: seq<T>)
    requires IsSubseq(a, b) && IsSubseq(b, c)
    ensures IsSubseq(a, c)
    decreases |c|
  {
    if |a| == 0 {
    } else if |b| == 0 {
      assert false;
    } else if b[0] == c[0] && IsSubseq(b[1..], c[1..]) {
      if a[0] == b[0] && IsSubseq(a[1..], b[1..]) {
        SubseqTrans(a[1..], b[1..], c[1..]);
      } else {
        SubseqTrans(a, b[1..], c[1..]);
      }
    } else {
      SubseqTrans(a, b, c[1..]);
    }
  }

  /** Removing one element keeps the rest as a subsequence. */
  lemma {:induction false} RemoveAtIsSubseq<T>(s: seq<T>, i: nat)
    requires i < |s|
    ensures IsSubseq(RemoveAt(s, i), s)
    decreases i
  {
    var r := RemoveAt(s, i);
    if i == 0 {
      assert r == s[1..];
      SubseqRefl(s[1..]);
    } else {
      var tail := s[1..];
      RemoveAtIsSubseq(tail, i - 1);
      assert r[1..] == tail[..i - 1] + tail[i..];
    }
  }
}

=== FILE: server.dfy ===
/** The request dispatcher: each route of the server as one transition of
    the shop state, answering either with a body or with an error. */
module Server {
  import opened Wrappers
  import opened ShopState
  import Users
  import Catalog
  import Cart
  import Checkout
  import Transactions

  datatype Request =
    | PostGenerateUser
    | GetBalanceOf(userId: int)
    | GetProducts
    | PostProduct(name: string, price: Option<int>, upload: Option<string>)
    | DeleteProductById(id: int)
    | DeleteProductList(ids: Option<seq<int>>)
    | PostCartAdd(cartUser: Option<int>, productId: Option<int>, quantity: int)
    | GetCartOf(userId: int)
    | DeleteCartOf(userId: int)
    | PostCheckout(userId: int, date: Timestamp)
    | GetTransactionsOf(userId: int)

  datatype Response =
    | Failed(error: Error)
    | UserBody(user: User)
    | ProductsBody(products: seq<Product>)
    | ProductBody(product: Product)
    | DeletedBody(deleted: seq<Product>)
    | CartBody(lines: seq<CartLine>)
    | CartViewBody(view: Cart.CartView)
    | Cleared
    | ReceiptBody(receipt: Checkout.Receipt)
    | TransactionsBody(transactions: seq<Transaction>)

  /** The routes that only read the state. */
  predicate ReadOnly(req: Request) {
    req.GetBalanceOf? || req.GetProducts? || req.GetCartOf? || req.GetTransactionsOf?
  }

  /** The routes that change state and can fail: on success the new state
      and the body, on failure the unchanged state and the error. */
  function AddProductRoute(s: Shop, name: string, price: Option<int>, upload: Option<string>): (r: (Shop, Response))
    ensures r.1.Failed? ==> r.0 == s
    ensures r.1.Failed? <==> name == "" || price.None? || upload.None?
    ensures !r.1.Failed? ==> r.1.ProductBody? && r.0.products == s.products + [r.1.product]
  {
    var res := Catalog.AddProduct(s, name, price, upload);
    if res.Ok? then (res.value.0, ProductBody(res.value.1)) else (s, Failed(res.error))
  }

  function DeleteProductRoute(s: Shop, id: int): (r: (Shop, Response))
    ensures r.1.Failed? ==> r.0 == s
    ensures r.1.Failed? <==> forall j :: 0 <= j < |s.products| ==> s.products[j].id != id
    ensures !r.1.Failed? ==> r.1.ProductBody? && r.1.product.id == id && |r.0.products| == |s.products| - 1
  {
    var res := Catalog.DeleteProduct(s, id);
    if res.Ok? then (res.value.0, ProductBody(res.value.1)) else (s, Failed(res.error))
  }

  function DeleteProductsRoute(s: Shop, ids: Option<seq<int>>): (r: (Shop, Response))
    ensures r.1.Failed? ==> r.0 == s
    ensures r.1.Failed? <==> ids.None? || |ids.value| == 0
    ensures !r.1.Failed? ==> r.1.DeletedBody? && multiset(r.0.products) + multiset(r.1.deleted) == multiset(s.products)
  {
    var res := Catalog.DeleteProducts(s, ids);
    if res.Ok? then (res.value.0, DeletedBody(res.value.1)) else (s, Failed(res.error))
  }

  function CartAddRoute(s: Shop, u: Option<int>, p: Option<int>, q: int): (r: (Shop, Response))
    ensures r.1.Failed? ==> r.0 == s
    ensures !r.1.Failed? ==> u.Some? && r.1.CartBody? && r.0 == s.(cart := s.cart[u.value := r.1.lines])
  {
    var res := Cart.AddToCart(s, u, p, q);
    if res.Ok? then (res.value.0, CartBody(res.value.1)) else (s, Failed(res.error))
  }

  function CheckoutRoute(s: Shop, u: int, date: Timestamp): (r: (Shop, Response))
    ensures r.1.Failed? ==> r.0 == s
    ensures r.1.ReceiptBody? ==> r.1.receipt.balance >= 0
    ensures r.1.Failed? <==> !Checkout.CanCommit(s, u)
    ensures !r.1.Failed? ==>
              && r.1.ReceiptBody?
              && r.0.transactions == s.transactions + [Transaction(u, r.1.receipt.purchasedProducts,
                                                                   Cart.CartCost(s.products, CartOf(s.cart, u)), date)]
  {
    var res := Checkout.Checkout(s, u, date);
    if res.Ok? then (res.value.0, ReceiptBody(res.value.1)) else (s, Failed(res.error))
  }

  /** The answer of a route that only reads the state. */
  function ReadRoute(s: Shop, req: Request): Response
    requires ReadOnly(req)
  {
    match req
    case GetBalanceOf(id) =>
      var res := Users.GetBalance(s, id);
      if res.Ok? then UserBody(res.value) else Failed(res.error)
    case GetProducts => ProductsBody(s.products)
    case GetCartOf(u) => CartViewBody(Cart.CartDetails(s, u))
    case GetTransactionsOf(u) => TransactionsBody(Transactions.TransactionsOf(s.transactions, u))
  }

  /** One request: the state after it and the answer. A failed request
      leaves the state exactly as it was. */
  function Handle(s: Shop, req: Request): (r: (Shop, Response))
    ensures r.1.Failed? ==> r.0 == s
    ensures ReadOnly(req) ==> r.0 == s
    ensures req.PostCheckout? && r.1.ReceiptBody? ==> r.1.receipt.balance >= 0
  {
    if ReadOnly(req) then (s, ReadRoute(s, req))
    else match req
    case PostGenerateUser =>
      var g := Users.GenerateUser(s);
      (g.0, UserBody(g.1))
    case PostProduct(name, price, upload) => AddProductRoute(s, name, price, upload)
    case DeleteProductById(id) => DeleteProductRoute(s, id)
    case DeleteProductList(ids) => DeleteProductsRoute(s, ids)
    case PostCartAdd(u, p, q) => CartAddRoute(s, u, p, q)
    case DeleteCartOf(u) => (Cart.ClearCart(s, u), Cleared)
    case PostCheckout(u, date) => CheckoutRoute(s, u, date)
  }

  /** Every request keeps the shop invariant. */
  lemma HandleKeepsValid(s: Shop, req: Request)
    requires Valid(s)
    ensures Valid(Handle(s, req).0)
  {
    match req
    case PostGenerateUser =>
      Users.GenerateUserKeepsUsersValid(s);
    case PostCartAdd(u, p, q) =>
      if Cart.AddToCart(s, u, p, q).Ok? {
        Cart.AddToCartKeepsValid(s, u, p, q);
      }
    case DeleteCartOf(u) =>
      Cart.ClearCartKeepsValid(s, u);
    case PostCheckout(u, date) =>
      if Checkout.Checkout(s, u, date).Ok? {
        Checkout.CheckoutKeepsValid(s, u, date);
      }
    case _ =>
  }

  /** The state after a sequence of requests, served one at a time. */
  function Run(s: Shop, reqs: seq<Request>): Shop
    decreases |reqs|
  {
    if |reqs| == 0 then s else Run(Handle(s, reqs[0]).0, reqs[1..])
  }

  /** Whatever requests arrive, user ids stay distinct and below the
      counter, no balance goes negative and every cart stays unique by
      product with positive quantities. */
  lemma {:induction false} RunKeepsValid(s: Shop, reqs: seq<Request>)
    requires Valid(s)
    ensures Valid(Run(s, reqs))
    decreases |reqs|
  {
    if |reqs| > 0 {
      HandleKeepsValid(s, reqs[0]);
      RunKeepsValid(Handle(s, reqs[0]).0, reqs[1..]);
    }
  }

  /** The states of the purchase scenario below, step by step. */
  const Buyer := User(1, Users.DefaultName(1), StartingBalance)
  const Item := Product(1, "item", 100, Catalog.ImageUrl("1.png"))
  const AfterGenerate := Shop([], [Buyer], 2, map[], [])
  const AfterAdd := AfterGenerate.(products := [Item])
  const AfterCartAdd := AfterAdd.(cart := map[1 := [CartLine(1, 3)]])

  lemma GenerateStep()
    ensures Handle(Load([], [], map[], []), PostGenerateUser).0 == AfterGenerate
  {
  }

  lemma AddProductStep()
    ensures Handle(AfterGenerate, PostProduct("item", Some(100), Some("1.png"))).0 == AfterAdd
  {
    assert "item" != "";
    assert AfterGenerate.products + [Item] == [Item];
  }

  lemma CartAddStep()
    ensures Handle(AfterAdd, PostCartAdd(Some(1), Some(1), 3)).0 == AfterCartAdd
  {
    assert UserIndex(AfterAdd.users, 1) == Some(0);
    assert FindProduct(AfterAdd.products, 1) == Some(Item);
    assert Cart.MergeLine([], 1, 3) == [CartLine(1, 3)];
  }

  lemma CheckoutStep(date: Timestamp)
    ensures var (s4, answer) := Handle(AfterCartAdd, PostCheckout(1, date));
            && answer.ReceiptBody? && answer.receipt.balance == 49700
            && s4.users[0].balance == 49700
            && |s4.transactions| == 1 && s4.transactions[0].totalPrice == 300
            && CartOf(s4.cart, 1) == []
  {
    assert UserIndex(AfterCartAdd.users, 1) == Some(0);
    assert FindProduct(AfterCartAdd.products, 1) == Some(Item);
    assert Cart.CartCost(AfterCartAdd.products, [CartLine(1, 3)]) == 300;
    assert Checkout.CanCommit(AfterCartAdd, 1);
  }

  /** A fresh server: a generated user (balance 50000) buys three of a
      product priced 100; the balance drops to 49700, one transaction of
      300 is logged and the cart is empty. */
  lemma EndToEndPurchase(date: Timestamp)
    ensures var s0 := Load([], [], map[], []);
            var s1 := Handle(s0, PostGenerateUser).0;
            var s2 := Handle(s1, PostProduct("item", Some(100), Some("1.png"))).0;
            var s3 := Handle(s2, PostCartAdd(Some(1), Some(1), 3)).0;
            var (s4, answer) := Handle(s3, PostCheckout(1, date));
            && answer.ReceiptBody? && answer.receipt.balance == 49700
            && s4.users[0].balance == 49700
            && |s4.transactions| == 1 && s4.transactions[0].totalPrice == 300
            && CartOf(s4.cart, 1) == []
  {
    GenerateStep();
    AddProductStep();
    CartAddStep();
    CheckoutStep(date);
  }
}

=== FILE: state.dfy ===
/** The in-memory state of the shop server: the four collections it keeps
    (products, users, carts, transactions) and the user-id counter, with the
    first-match lookups every handler uses. */
module ShopState {
  import opened Wrappers
  import opened Seqs

  /** An opaque reading of the server's clock, stamped on each transaction. */
  type Timestamp = nat

  /** A catalog entry. `imageUrl` is the public path of the uploaded image. */
  datatype Product = Product(id: int, name: string, price: int, imageUrl: string)

  datatype User = User(id: int, name: string, balance: int)

  /** One line of a cart: a product reference and how many of it. */
  datatype CartLine = CartLine(productId: int, quantity: int)

  /** A purchased line as recorded at checkout: a snapshot of the product,
      the quantity bought and the line's price. */
  datatype PurchasedItem = PurchasedItem(product: Product, quantity: int, itemTotalPrice: int)

  datatype Transaction = Transaction(userId: int, products: seq<PurchasedItem>, totalPrice: int, date: Timestamp)

  datatype Shop = Shop(
    products: seq<Product>,
    users: seq<User>,
    nextUserId: int,
    cart: map<int, seq<CartLine>>,
    transactions: seq<Transaction>)

  /** The error answers of the handlers (HTTP 4xx responses). */
  datatype Error =
    | IncompleteProduct          // POST /products without name, price or image
    | ProductMissing             // DELETE /products/:id for an unknown id
    | InvalidProductIds          // DELETE /products without a non-empty id array
    | InvalidCartRequest         // POST /cart/add with a missing id or quantity < 1
    | UserMissing                // unknown user
    | ProductNotFound(id: int)   // a product id that resolves to nothing
    | EmptyCart                  // checkout with no cart lines
    | InsufficientBalance        // checkout total exceeds the balance

  /** The balance every generated user starts with. */
  const StartingBalance := 50000

  function ProductKey(p: Product): int { p.id }
  function UserKey(u: User): int { u.id }
  function LineKey(l: CartLine): int { l.productId }

  /** Position `i` holds the first product with id `id`. */
  predicate FirstWithId(ps: seq<Product>, id: int, i: nat) {
    i < |ps| && ps[i].id == id && forall j :: 0 <= j < i ==> ps[j].id != id
  }

  /** `products.find(p => p.id === id)`: the first product with that id. */
  function FindProduct(ps: seq<Product>, id: int): (r: Option<Product>)
    ensures r.None? <==> forall j :: 0 <= j < |ps| ==> ps[j].id != id
    ensures r.Some? ==> r.value.id == id && r.value in ps
  {
    match FirstIndex(ps, ProductKey, id)
    case None => None
    case Some(i) => Some(ps[i])
  }

  /** The product found is the one at the first position carrying the id. */
  lemma FindProductIsFirst(ps: seq<Product>, id: int, i: nat)
    requires FirstWithId(ps, id, i)
    ensures FindProduct(ps, id) == Some(ps[i])
  {
    assert ProductKey(ps[i]) == id;
  }

  /** `users.find(u => u.id === id)`, by position so the user can be updated in place. */
  function UserIndex(us: seq<User>, id: int): (r: Option<nat>)
    ensures r.Some? ==> r.value < |us| && us[r.value].id == id
    ensures r.Some? ==> forall j :: 0 <= j < r.value ==> us[j].id != id
    ensures r.None? <==> forall j :: 0 <= j < |us| ==> us[j].id != id
  {
    FirstIndex(us, UserKey, id)
  }

  /** `cart[userId] || []`: a user without a cart entry has no lines. */
  function CartOf(cart: map<int, seq<CartLine>>, userId: int): (lines: seq<CartLine>)
    ensures userId !in cart ==> lines == []
    ensures userId in cart ==> lines == cart[userId]
  {
    if userId in cart then cart[userId] else []
  }

  /** The counter computed at start-up from the loaded users:
      one more than the largest id, or 1 when there are none. */
  function InitialNextUserId(users: seq<User>): (next: int)
    ensures forall i :: 0 <= i < |users| ==> users[i].id < next
    ensures |users| == 0 ==> next == 1
    ensures |users| > 0 ==> exists i :: 0 <= i < |users| && users[i].id == next - 1
  {
    if |users| == 0 then 1 else MaxId(users) + 1
  }

  function MaxId(users: seq<User>): (m: int)
    requires |users| > 0
    ensures forall i :: 0 <= i < |users| ==> users[i].id <= m
    ensures exists i :: 0 <= i < |users| && users[i].id == m
  {
    if |users| == 1 then users[0].id
    else
      var rest := MaxId(users[1..]);
      assert forall i :: 1 <= i < |users| ==> users[i] == users[1..][i - 1];
      if users[0].id >= rest then users[0].id else rest
  }

  /** The state right after start-up, from whatever the JSON files held. */
  function Load(products: seq<Product>, users: seq<User>, cart: map<int, seq<CartLine>>,
                transactions: seq<Transaction>): (s: Shop)
    ensures s.products == products && s.users == users && s.cart == cart && s.transactions == transactions
    ensures forall i :: 0 <= i < |users| ==> users[i].id < s.nextUserId
    ensures s.nextUserId == InitialNextUserId(users)
  {
    Shop(products, users, InitialNextUserId(users), cart, transactions)
  }

  /** A cart's lines are unique by product id and each holds at least one item. */
  predicate WellFormedCart(lines: seq<CartLine>) {
    && (forall i :: 0 <= i < |lines| ==> lines[i].quantity >= 1)
    && (forall i, j :: 0 <= i < j < |lines| ==> lines[i].productId != lines[j].productId)
  }

  predicate UsersValid(users: seq<User>, nextUserId: int) {
    && (forall i :: 0 <= i < |users| ==> users[i].id < nextUserId && users[i].balance >= 0)
    && (forall i, j :: 0 <= i < j < |users| ==> users[i].id != users[j].id)
  }

  /** What the handlers maintain: the user counter is fresh, user ids are
      distinct, no balance is negative and every cart is well formed. */
  predicate Valid(s: Shop) {
    && UsersValid(s.users, s.nextUserId)
    && forall u :: u in s.cart ==> WellFormedCart(s.cart[u])
  }

  /** Start-up establishes the invariant whenever the loaded files satisfy its
      data parts; the counter part comes from `InitialNextUserId`. */
  lemma LoadValid(products: seq<Product>, users: seq<User>, cart: map<int, seq<CartLine>>,
                  transactions: seq<Transaction>)
    requires forall i :: 0 <= i < |users| ==> users[i].balance >= 0
    requires forall i, j :: 0 <= i < j < |users| ==> users[i].id != users[j].id
    requires forall u :: u in cart ==> WellFormedCart(cart[u])
    ensures Valid(Load(products, users, cart, transactions))
  {
  }
}

=== FILE: transactions.dfy ===
/** The transaction log and its per-user view. */
module Transactions {
  import opened Seqs
  import opened ShopState

  /** GET /transactions/:userId: the user's transactions, oldest first. */
  function TransactionsOf(txs: seq<Transaction>, userId: int): (r: seq<Transaction>)
    ensures |r| <= |txs|
    ensures forall i :: 0 <= i < |r| ==> r[i].userId == userId
    ensures forall t :: t in r <==> t in txs && t.userId == userId
    ensures IsSubseq(r, txs)
  {
    if |txs| == 0 then []
    else
      var rest := TransactionsOf(txs[1..], userId);
      if txs[0].userId == userId then
        assert ([txs[0]] + rest)[1..] == rest;
        [txs[0]] + rest
      else rest
  }

  /** Appending to the log extends exactly the owner's view, at its end. */
  lemma {:induction false} TransactionsOfAppend(txs: seq<Transaction>, t: Transaction, userId: int)
    ensures TransactionsOf(txs + [t], userId)
              == TransactionsOf(txs, userId) + (if t.userId == userId then [t] else [])
    decreases |txs|
  {
    if |txs| == 0 {
      assert txs + [t] == [t];
      assert [t][1..] == [];
    } else {
      assert (txs + [t])[1..] == txs[1..] + [t];
      TransactionsOfAppend(txs[1..], t, userId);
    }
  }
}

=== FILE: users.dfy ===
/** The user ledger: generating users from the counter and looking up a balance. */
module Users {
  import opened Wrappers
  import opened ShopState
  import Decimal

  /** The default display name, "客戶" followed by the id in decimal. */
  function DefaultName(id: int): string {
    "客戶" + Decimal.IntToString(id)
  }

  /** POST /generate-user: a user with the counter's id, the default name and
      the starting balance is appended and the counter moves on. */
  function GenerateUser(s: Shop): (r: (Shop, User))
    ensures r.1.id == s.nextUserId && r.1.balance == StartingBalance
    ensures r.1.name == DefaultName(s.nextUserId)
    ensures r.0.users == s.users + [r.1]
    ensures r.0.nextUserId == s.nextUserId + 1
    ensures r.0.products == s.products && r.0.cart == s.cart && r.0.transactions == s.transactions
  {
    var u := User(s.nextUserId, DefaultName(s.nextUserId), StartingBalance);
    (s.(users := s.users + [u], nextUserId := s.nextUserId + 1), u)
  }

  /** GET /balance/:userId: the first user with that id, or not found. */
  function GetBalance(s: Shop, userId: int): (r: Result<User, Error>)
    ensures r.Err? <==> forall j :: 0 <= j < |s.users| ==> s.users[j].id != userId
    ensures r.Err? ==> r.error == UserMissing
    ensures r.Ok? ==> r.value.id == userId && r.value in s.users
    ensures r.Ok? ==> exists i :: 0 <= i < |s.users| && r.value == s.users[i]
                                 && forall j :: 0 <= j < i ==> s.users[j].id != userId
  {
    match UserIndex(s.users, userId)
    case None => Err(UserMissing)
    case Some(i) => Ok(s.users[i])
  }

  /** Generating a user keeps the ledger valid: the new id is fresh, so ids
      stay distinct and the counter stays above them all. */
  lemma GenerateUserKeepsUsersValid(s: Shop)
    requires UsersValid(s.users, s.nextUserId)
    ensures UsersValid(GenerateUser(s).0.users, GenerateUser(s).0.nextUserId)
    ensures forall i :: 0 <= i < |s.users| ==> s.users[i].id != GenerateUser(s).1.id
  {
  }

  /** Users generated one after another get distinct ids and distinct names. */
  lemma GeneratedUsersDiffer(s: Shop)
    ensures GenerateUser(s).1.id != GenerateUser(GenerateUser(s).0).1.id
    ensures GenerateUser(s).1.name != GenerateUser(GenerateUser(s).0).1.name
  {
    var a := GenerateUser(s).1;
    var b := GenerateUser(GenerateUser(s).0).1;
    Decimal.IntToStringInjective(a.id, b.id);
    var p := "客戶";
    assert a.name == p + Decimal.IntToString(a.id);
    assert b.name == p + Decimal.IntToString(b.id);
    assert a.name[|p|..] == Decimal.IntToString(a.id);
    assert b.name[|p|..] == Decimal.IntToString(b.id);
  }
}

=== FILE: wrappers.dfy ===
/** Failure-carrying result types shared by every handler of the shop model. */
module Wrappers {

  /** A value that may be absent: a missing request field, a failed lookup. */
  datatype Option<+T> = None | Some(value: T)

  /** The outcome of a handler: a value on success, or the error the server answers with. */
  datatype Result<+T, +E> = Ok(value: T) | Err(error: E)
}
